=== FILE: README.md ===
# NFA to DFA conversion and DFA "minimization", modelled in Dafny

This project models the two automaton algorithms at the heart of the
repository and proves what they compute:

- `epsilon_closure` and `convert_nfa_to_dfa` (`nfa_to_dfa.py`): the
  breadth-first epsilon-closure and the Rabin–Scott subset construction.
  The closure is proved to be exactly the set of states reachable by
  epsilon moves. The constructed DFA is proved to start in the closure of
  the start state, to mark as final exactly the composite states that meet
  the NFA's finals, and to have exactly one transition per symbol with a
  non-empty move, leading to the closure of that move. From these facts it
  is proved that the DFA accepts exactly the words the NFA accepts, and that
  its states are exactly the non-empty sets of NFA states the NFA can occupy
  after some word. It follows that the result does not depend on the order
  in which the worklist or the sets are traversed.
- `minimize_dfa` (`dfa_minimizer.py`), modelled as the code is written. It
  is a partition refinement that pops an element of `waiting` it never
  reads, splits each block by whether its states' moves on one symbol land
  in that same block, and adds `None` to `waiting` in one branch of
  `dfa_minimizer.py:46`. The model proves the following:
  - the blocks always partition the input states;
  - final and non-final states are never mixed;
  - no split creates an empty block;
  - the loop terminates;
  - on exit no symbol splits any block;
  - the result is the quotient of the input by the blocks.

  A state outside every block raises `KeyError`, modelled as a `Failure`.

Modules:

- `Automata` (`automata.dfy`): the shared types (NFA and DFA records,
  string states and symbols, the `"ε"` label) and the DFA run.
- `EpsilonClosure` (`epsilon_closure.dfy`): the closure.
- `SubsetConstruction` (`subset_construction.dfy`): the construction and its
  language equivalence.
- `Partitions` (`partitions.dfy`): families of blocks.
- `DfaMinimizer` (`dfa_minimizer.dfy`): the minimizer and the quotient it builds.

Python's arbitrary set iteration and `pop` order appear as `:|` choices. Every
contract holds whatever the choices are.

## Model

| member | source | states |
|---|---|---|
| EpsilonClosure.ComputeClosure | nfa_to_dfa.py:4-15 | the result is exactly the set of states reachable from `S` by zero or more epsilon moves |
| EpsilonClosure.Traverse | nfa_to_dfa.py:5-13 | the worklist terminates with a set that contains `S`, is closed under the successor function, and lies inside every closed set containing `S` |
| EpsilonClosure.Visit | nfa_to_dfa.py:10-13 | the closure gains exactly the successors, and the queue gains exactly the successors that were not yet in the closure |
| EpsilonClosure.Enumerate | nfa_to_dfa.py:6 | the initial queue holds every state of `S` exactly once |
| EpsilonClosure.ClosureContains | nfa_to_dfa.py:5 | every state of `S` is in its closure |
| EpsilonClosure.ClosureClosed | nfa_to_dfa.py:8-13 | an epsilon move from a state of the closure stays in the closure |
| EpsilonClosure.PathStaysIn | nfa_to_dfa.py:8-13 | an epsilon path that starts in an epsilon-closed set ends in it |
| EpsilonClosure.ClosureLeast | nfa_to_dfa.py:5-13 | the closure lies inside every epsilon-closed superset of `S` |
| EpsilonClosure.ClosureOfEmpty | nfa_to_dfa.py:5-13 | the closure of the empty set is empty |
| EpsilonClosure.ClosureNoEpsMoves | nfa_to_dfa.py:5-13 | a state without epsilon moves closes to itself |
| EpsilonClosure.ClosureIdempotent | nfa_to_dfa.py:5-13 | closing a closure changes nothing |
| EpsilonClosure.ClosureMonotone | nfa_to_dfa.py:5-13 | a larger set has a larger closure |
| SubsetConstruction.ConvertNfaToDfa | nfa_to_dfa.py:17-59 | the start is the closure of the NFA start and is a DFA state; a DFA state is final iff it meets the NFA's finals; every transition `(C, a) -> D` has `C` and `D` among the states, `a` not epsilon, a non-empty move, and `D` its closure; every such move has a transition; every state is a non-empty set the NFA occupies after some word; the loop terminates |
| SubsetConstruction.ProcessState | nfa_to_dfa.py:32-57 | one iteration keeps the loop invariant; it either skips an already recorded state, shortening the queue, or records the popped state, which lies in the finite universe |
| SubsetConstruction.AddTransitions | nfa_to_dfa.py:43-57 | existing transitions are kept; a new transition leaves the current state on a scanned symbol with a non-empty move, leads to its closure, and that target is recorded or queued; every scanned symbol with a non-empty move gets one; the queue only grows, and only by sets the NFA can occupy |
| SubsetConstruction.AddTransition | nfa_to_dfa.py:48-57 | an empty move changes nothing; a non-empty move records the transition to its closure, which is queued exactly when it is not a recorded state |
| SubsetConstruction.StepDiscovered | nfa_to_dfa.py:48-53 | the closure of a non-empty move out of a reachable set is non-empty, built from NFA states, and reachable |
| SubsetConstruction.StepReached | nfa_to_dfa.py:48-53 | one more input symbol from a reachable set reaches the closure of its move |
| SubsetConstruction.MoveNeedsSymbol | nfa_to_dfa.py:43-50 | a symbol with a non-empty move out of `C` is among the symbols scanned for `C` |
| SubsetConstruction.InvariantInit | nfa_to_dfa.py:24-29 | the loop invariant holds for an empty DFA and a queue holding the closure of the start |
| SubsetConstruction.TransitionsKept | nfa_to_dfa.py:54-57 | after a state is recorded, every transition still leads to a recorded or queued state |
| SubsetConstruction.TransitionsAdded | nfa_to_dfa.py:43-54 | after a state is recorded with its scanned transitions, every recorded state has all its transitions |
| SubsetConstruction.NfaRunSnoc | nfa_to_dfa.py:48-53 | reading one more symbol closes the move of the current set |
| SubsetConstruction.RunTracksNfa | nfa_to_dfa.py:28-58 | from any DFA state, the DFA run on a word is the set of NFA states occupied after it, and the run stops exactly when that set is empty |
| SubsetConstruction.LanguageEquivalence | nfa_to_dfa.py:28-58 | on every word without epsilon, the DFA accepts iff the NFA accepts |
| SubsetConstruction.StatesAreReachedSets | nfa_to_dfa.py:28-58 | the DFA states are exactly the non-empty sets of NFA states occupied after some word |
| SubsetConstruction.ResultIsUnique | nfa_to_dfa.py:31-57 | any two results of the construction for the same NFA are equal, whatever the traversal order |
| DfaMinimizer.PushSplit | dfa_minimizer.py:41-46 | one of the halves is waiting afterwards; `waiting` grows by at most two elements, counting `None`; nothing but the split block leaves it |
| DfaMinimizer.SplitBlock | dfa_minimizer.py:34-48 | a block with two non-empty halves is replaced by both, and `waiting` gains at most two elements and is non-empty; otherwise the block is kept and `waiting` is untouched |
| DfaMinimizer.VisitBlock | dfa_minimizer.py:33-48 | visiting one more block adds its pieces to the refinement of the visited blocks, and counts the split |
| DfaMinimizer.RefineBlocks | dfa_minimizer.py:32-50 | the new blocks are the pieces of the old ones; each split adds one block and at most two waiting elements; with no split `waiting` is unchanged, and with one it is non-empty |
| DfaMinimizer.RefineBySymbol | dfa_minimizer.py:21-50 | the new blocks are disjoint pieces of the old ones with the same union and no new empty block; the pieces of every old block are present; the partition is unchanged exactly when no block splits on the symbol, and `waiting` is then unchanged too; a changed partition leaves `waiting` non-empty; the result is exactly `Step`, every block replaced by its pieces |
| DfaMinimizer.RefinePass | dfa_minimizer.py:19-50 | a pass over every symbol leaves a disjoint family with the same union whose blocks lie inside the old ones, and that family is the old one refined by a sequence of its symbols, one at a time; `waiting` is empty afterwards only if no block splits on any symbol, and a partition that no symbol splits comes back unchanged together with `waiting` |
| DfaMinimizer.PassSymbol | dfa_minimizer.py:21-50 | one symbol leaves the symbols still to handle, and the pass so far stays unchanged while no block splits, with every handled symbol splitting none; after a split `waiting` is non-empty; the symbol it picks is one of the symbols and the new partition is the old one refined by it |
| DfaMinimizer.RefineRound | dfa_minimizer.py:15-50 | popping a token and running a pass keeps a partition of the states that separates finals, never gains an empty block, lets `waiting` grow by fewer than two tokens per new block, and leaves a partition that no symbol splits as it is; the new partition is the old one refined by a sequence of the symbols |
| DfaMinimizer.Refine | dfa_minimizer.py:12-50 | the loop terminates with a partition of `states + finals` that never mixes finals and non-finals, holds the empty block iff `finals` or `states - finals` is empty, and is split by no symbol; when no symbol splits `{finals, states - finals}`, that initial partition is returned as it is; the result is `{finals, states - finals}` refined by some sequence of the symbols, so it is no finer than such refinements |
| DfaMinimizer.InitialPartition | dfa_minimizer.py:12-13 | `{finals, states - finals}` partitions `states + finals`, separates the finals, and has at most one block more than there are states |
| DfaMinimizer.ProgressKeeps | dfa_minimizer.py:32-50 | refining a separating partition yields a separating partition with at most one block more than there are states |
| DfaMinimizer.RefinementFlatten | dfa_minimizer.py:32-50 | refinement keeps the union of the blocks |
| DfaMinimizer.RefinementDisjoint | dfa_minimizer.py:32-50 | refining disjoint blocks yields disjoint blocks |
| DfaMinimizer.RefinementRefines | dfa_minimizer.py:32-50 | every refined block lies inside the block it came from |
| DfaMinimizer.RefinementEmpty | dfa_minimizer.py:37-48 | refinement contains the empty block iff the original family did |
| DfaMinimizer.RefinementFixed | dfa_minimizer.py:37-48 | a disjoint family is its own refinement exactly when no block splits |
| DfaMinimizer.RefinementAdd | dfa_minimizer.py:33-48 | refining one more block adds exactly its pieces |
| DfaMinimizer.SplitBySnoc | dfa_minimizer.py:21-50 | refining by a sequence and then by one more symbol is refining by the sequence extended with that symbol |
| DfaMinimizer.SplitByAppend | dfa_minimizer.py:15-50 | refining by one sequence of symbols and then another is refining by their concatenation, so the passes of successive rounds compose |
| DfaMinimizer.TraceStep | dfa_minimizer.py:21-50 | a pass that has refined by a sequence of the symbols and refines by one more symbol has refined by the extended sequence, still of the symbols |
| DfaMinimizer.StableOfInverse | dfa_minimizer.py:23-37 | a partition is stable under the inverse that dfa_minimizer.py:23-29 computes if and only if no symbol splits any block by its predecessors in the transition map |
| DfaMinimizer.StateMap | dfa_minimizer.py:53 | every state of every block is mapped, and only those, to a block that contains it |
| DfaMinimizer.QuotientTransitions | dfa_minimizer.py:56-59 | success iff every transition starts and ends in a mapped state; a failure names an unmapped transition end; every input key's block has an output transition on its symbol; every output transition comes from an input transition between states of its two blocks |
| DfaMinimizer.Quotient | dfa_minimizer.py:53-64 | success iff every transition end and the start lie in the partitioned states; the `KeyError` names a transition end when one is missing and otherwise the start; on success the states are the partition and the result is its quotient, whose transitions go between blocks of the partition |
| DfaMinimizer.QuotientOf | dfa_minimizer.py:61-64 | the start block is a block and contains the start, final blocks are those that meet the finals, every output transition goes between blocks and comes from an input transition between their states, and every input transition has an output transition from its block |
| DfaMinimizer.QuotientFinals | dfa_minimizer.py:62 | the image of the finals under the state map is the set of blocks that hold a final state |
| DfaMinimizer.QuotientSound | dfa_minimizer.py:56-59 | every output transition `(B, a) -> B'` has `B` and `B'` among the blocks and comes from an input transition `(s, a) -> t` with `s` in `B` and `t` in `B'` |
| DfaMinimizer.QuotientComplete | dfa_minimizer.py:56-59 | every input transition has an output transition from its block on its symbol, to a block |
| DfaMinimizer.MinimizeDfa | dfa_minimizer.py:4-64 | success iff every transition end and the start lie in `states + finals`, with the missing state named otherwise; on success the blocks partition the states, never mix finals and non-finals, contain the empty block iff `finals` or `states - finals` is empty, are split by no symbol, final blocks lie inside `finals`, and the result is the quotient, whose transitions go between its blocks; when no symbol splits `{finals, states - finals}`, the result has exactly those two blocks; its blocks are `{finals, states - finals}` refined by some sequence of the transition symbols |
| Partitions.FamilySize | dfa_minimizer.py:15-50 | a disjoint family has at most one block more than it has states, which bounds the number of splits |
| Partitions.NonEmptyFamilySize | dfa_minimizer.py:15-50 | a disjoint family of non-empty blocks has no more blocks than states |
| Partitions.RefinesTrans | dfa_minimizer.py:21-50 | refining a refinement refines the original |

## Left out

- `main.py`, `database.py`, `display.py` and the two test scripts are left out. They hold the command line, MySQL storage, Graphviz rendering and environment smoke checks, which are I/O and do not belong to the algorithms.
- The labels `display.py` builds for composite states are left out. They are presentation only and are never used as equality keys. Composite states are compared by value, as Dafny sets.
- `convert_nfa_to_dfa` takes the NFA's `states` and never reads them. The model carries them in the `Nfa` record and reads them nowhere.
- No input validation is modelled, because the code does none. `convert_nfa_to_dfa` raises nothing when the start state or a transition end lies outside `states`, and nothing when the state set is empty. The conversion model accepts any input. The minimizer model fails only where the code does: on a missing `state_map` key, which is its `KeyError`.
- The code does not remove unreachable states and is not Moore's algorithm, so the model does neither. When `finals` or `states - finals` is empty, the code keeps the empty initial block as a block of the result, and the model does the same.
- The minimizer's partition covers `states + finals` rather than `states`, as the code's initial blocks do. The two coincide when `finals` is a subset of `states`.
- DfaMinimizer.MinimizeDfa: minimality and language equivalence of the result are not stated, because they do not hold of this code. Splitting a block only by moves into that same block is not a congruence.
- DfaMinimizer.Inverse: the model is a set comprehension, not the loop at dfa_minimizer.py:24-29 that files each from-state under the first block holding its target. They agree because the blocks are disjoint.
- DfaMinimizer.QuotientTransitions: which input transition supplies the target of a shared output key is left open. The code's dictionary keeps the last write in its iteration order.
- The `None` that `dfa_minimizer.py:46` adds to `waiting` is modelled as written (`NoneToken`), not corrected. The popped element is never read, so it only costs one more pass.

=== FILE: automata.dfy ===
/** Shared vocabulary of the automaton core.

    NFA states and input symbols are strings; one reserved symbol labels the
    epsilon (no-input) move. An NFA maps a state and a symbol to a set of
    states; a DFA maps a (state, symbol) pair to at most one state, with a
    missing entry meaning "no move". Composite DFA states are sets of NFA
    states, compared by value.
 */
module Automata {

  type NState = string
  type Sym = string

  /** The label of an epsilon move. */
  const EPS: Sym := "ε"

  /** NFA transitions: state -> symbol -> targets. A key missing at either
      level stands for the empty target set. */
  type NfaTrans = map<NState, map<Sym, set<NState>>>

  /** A state of the DFA built by subset construction. */
  type DState = set<NState>

  /** Transitions of a DFA over composite states. */
  type DfaTrans = map<(DState, Sym), DState>

  datatype Option<T> = None | Some(value: T)

  datatype Result<T, E> = Success(value: T) | Failure(error: E)

  datatype Nfa = Nfa(states: set<NState>, start: NState, finals: set<NState>, trans: NfaTrans)

  datatype Dfa<Q> = Dfa(states: set<Q>, start: Q, finals: set<Q>, trans: map<(Q, Sym), Q>)

  /** The targets of `s` on `a`, or none when either key is missing. */
  function Targets(trans: NfaTrans, s: NState, a: Sym): set<NState>
  {
    if s in trans && a in trans[s] then trans[s][a] else {}
  }

  /** Every state that some transition, epsilon or not, leads to. */
  function AllTargets(trans: NfaTrans): set<NState>
  {
    set s, a, t | s in trans && a in trans[s] && t in trans[s][a] :: t
  }

  /** A word over the input alphabet: it never contains the epsilon label. */
  predicate NoEps(w: seq<Sym>)
  {
    forall i :: 0 <= i < |w| ==> w[i] != EPS
  }

  /** The state a DFA reaches from `q` on `w`, or None once a move is missing. */
  function Run<Q(==)>(trans: map<(Q, Sym), Q>, q: Q, w: seq<Sym>): Option<Q>
    decreases |w|
  {
    if w == [] then Some(q)
    else if (q, w[0]) in trans then Run(trans, trans[(q, w[0])], w[1..])
    else None
  }

  /** A DFA accepts `w` when its run from the start ends in a final state;
      a missing transition rejects. */
  predicate Accepts<Q(==)>(d: Dfa<Q>, w: seq<Sym>)
  {
    match Run(d.trans, d.start, w)
    case Some(q) => q in d.finals
    case None => false
  }
}

=== FILE: dfa_minimizer.dfy ===
/** The DFA "minimizer" (dfa_minimizer.py, `minimize_dfa`), modelled as written.

    It starts from the two blocks `finals` and `states - finals` and, while a
    working set `waiting` is non-empty, pops an element it never reads and
    then, for every symbol in turn, splits each block by whether its states'
    move on that symbol lands in the same block. The quotient automaton is
    then read off through a map from each state to its block.

    This is neither Moore's nor Hopcroft's algorithm, and its result is not
    claimed minimal or language-equivalent. What the code does guarantee is
    proved here: the blocks stay a partition, finals and non-finals are
    never mixed, no split creates an empty block, the loop terminates, on
    exit no block can be split any more, and the quotient is well formed.
 */
module DfaMinimizer {
  import opened Automata
  import opened Partitions

  /** A block of the minimizer: a set of DFA states. */
  type Block = set<DState>

  /** Elements of `waiting`. A block, or the `None` that dfa_minimizer.py:46
      adds when the larger half of a split is pushed. */
  datatype Token<T> = Blk(block: set<T>) | NoneToken

  /** Raised by a `state_map` lookup of a state in no block
      (dfa_minimizer.py:57 and dfa_minimizer.py:61). */
  datatype MinimizeError = KeyError(missing: DState)

  /** The labels of all transitions (dfa_minimizer.py:19). */
  function Symbols(trans: DfaTrans): set<Sym>
  {
    set k | k in trans :: k.1
  }

  /** The states whose `a`-move lands in `part`: `inverse[part]`
      (dfa_minimizer.py:23-29). The loop at dfa_minimizer.py:24-29 files each from-state under the first
      block that holds the target; as blocks are disjoint, that is the only such block. */
  function Inverse(trans: DfaTrans, a: Sym, part: Block): set<DState>
  {
    set k | k in trans && k.1 == a && trans[k] in part :: k.0
  }

  /** `part` is split by `inv` when both halves are non-empty (dfa_minimizer.py:37). */
  predicate Splits<T>(part: set<T>, inv: set<T>)
  {
    part * inv != {} && part - inv != {}
  }

  /** `Inverse` for a fixed transition map, as a function of symbol and block. */
  function InverseOf(trans: DfaTrans): (Sym, Block) -> set<DState>
  {
    (a: Sym, part: Block) => Inverse(trans, a, part)
  }

  /** No block of `P` is split by the symbol `a`. */
  ghost predicate StableFor<T, S>(P: set<set<T>>, inv: (S, set<T>) -> set<T>, a: S)
  {
    forall B :: B in P ==> !Splits(B, inv(a, B))
  }

  /** No block of `P` is split by any symbol of `symbols`. */
  ghost predicate StableOn<T, S>(P: set<set<T>>, inv: (S, set<T>) -> set<T>, symbols: set<S>)
  {
    forall B, a :: B in P && a in symbols ==> !Splits(B, inv(a, B))
  }

  /** No block of `P` is split by any symbol: for every block and symbol,
      either every state of the block has a move on it into the block, or
      none has. */
  ghost predicate Stable(P: set<Block>, trans: DfaTrans)
  {
    forall B, a :: B in P && a in Symbols(trans) ==> !Splits(B, Inverse(trans, a, B))
  }

  /** No block holds both a final and a non-final state. */
  ghost predicate Separated<T>(P: set<set<T>>, finals: set<T>)
  {
    forall B :: B in P ==> B <= finals || B !! finals
  }

  /** `waiting` after `part` split into `split1` and `split2`
      (dfa_minimizer.py:41-46). A waiting block is replaced by both halves.
      Otherwise, when `split1` is no larger than `split2`, `split1` is added;
      when it is larger, the conditional expression's other branch itself
      adds `split2`, and the value of that branch, `None`, is added too. */
  method PushSplit<T(==)>(waiting: set<Token<T>>, part: set<T>, split1: set<T>, split2: set<T>) returns (w: set<Token<T>>)
    ensures Blk(split1) in w || Blk(split2) in w
    ensures |w| <= |waiting| + 2
    ensures forall t :: t in waiting && t != Blk(part) ==> t in w
  {
    if Blk(part) in waiting {
      w := waiting - {Blk(part)} + {Blk(split1)} + {Blk(split2)};
    } else if |split1| <= |split2| {
      w := waiting + {Blk(split1)};
    } else {
      w := waiting + {Blk(split2)} + {NoneToken};
    }
  }

  /** What block `B` becomes under the inverse `inv`: its two halves when
      both are non-empty (dfa_minimizer.py:37), otherwise `B` itself. */
  function Pieces<T>(B: set<T>, inv: set<T>): set<set<T>>
  {
    if Splits(B, inv) then {B * inv, B - inv} else {B}
  }

  /** The blocks dfa_minimizer.py:32-48 builds from `P`: the pieces of every block. */
  ghost function Refinement<T>(P: set<set<T>>, inverse: map<set<T>, set<T>>): set<set<T>>
    requires P <= inverse.Keys
  {
    set B, A | B in P && A in Pieces(B, inverse[B]) :: A
  }

  /** The refinement of `P` by symbol `a`, each block split by its
      predecessors on `a` (dfa_minimizer.py:21-50). */
  ghost function Step<T, S>(P: set<set<T>>, inv: (S, set<T>) -> set<T>, a: S): set<set<T>>
  {
    Refinement(P, map B | B in P :: inv(a, B))
  }

  /** `P` refined by the symbols of `syms`, one after the other: the only
      partitions that the loops of dfa_minimizer.py:15-50 can reach. */
  ghost function SplitBy<T, S>(P: set<set<T>>, inv: (S, set<T>) -> set<T>, syms: seq<S>): set<set<T>>
    decreases |syms|
  {
    if syms == [] then P else SplitBy(Step(P, inv, syms[0]), inv, syms[1..])
  }

  /** Refining by one more symbol extends the sequence at its end. */
  lemma {:induction false} SplitBySnoc<T, S>(P: set<set<T>>, inv: (S, set<T>) -> set<T>, syms: seq<S>, a: S)
    ensures SplitBy(P, inv, syms + [a]) == Step(SplitBy(P, inv, syms), inv, a)
    decreases |syms|
  {
    if syms == [] {
      assert SplitBy(Step(P, inv, a), inv, []) == Step(P, inv, a);
      assert [] + [a] == [a];
    } else {
      assert (syms + [a])[1..] == syms[1..] + [a];
      SplitBySnoc(Step(P, inv, syms[0]), inv, syms[1..], a);
    }
  }

  /** Refining by `s1` and then by `s2` is refining by `s1 + s2`. */
  lemma {:induction false} SplitByAppend<T, S>(P: set<set<T>>, inv: (S, set<T>) -> set<T>, s1: seq<S>, s2: seq<S>)
    ensures SplitBy(P, inv, s1 + s2) == SplitBy(SplitBy(P, inv, s1), inv, s2)
    decreases |s1|
  {
    if s1 == [] {
      assert [] + s2 == s2;
    } else {
      assert (s1 + s2)[1..] == s1[1..] + s2;
      SplitByAppend(Step(P, inv, s1[0]), inv, s1[1..], s2);
    }
  }

  /** Refining one more block adds its pieces. */
  lemma RefinementAdd<T>(D: set<set<T>>, part: set<T>, inverse: map<set<T>, set<T>>)
    requires D + {part} <= inverse.Keys
    ensures Refinement(D + {part}, inverse) == Refinement(D, inverse) + Pieces(part, inverse[part])
  {
    var L := Refinement(D + {part}, inverse);
    var R := Refinement(D, inverse) + Pieces(part, inverse[part]);
    forall A | A in L
      ensures A in R
    {
      var B :| B in D + {part} && A in Pieces(B, inverse[B]);
      if B != part {
        assert B in D;
      }
    }
    forall A | A in R
      ensures A in L
    {
      if A in Refinement(D, inverse) {
        var B :| B in D && A in Pieces(B, inverse[B]);
        assert B in D + {part};
      } else {
        assert part in D + {part};
      }
    }
  }

  /** The block of `P` that a refined block came from. */
  lemma ParentOf<T>(P: set<set<T>>, inverse: map<set<T>, set<T>>, A: set<T>) returns (B: set<T>)
    requires P <= inverse.Keys && A in Refinement(P, inverse)
    ensures B in P && A in Pieces(B, inverse[B]) && A <= B
  {
    B :| B in P && A in Pieces(B, inverse[B]);
  }

  /** The pieces of every block are blocks of the refinement. */
  lemma RefinementHasPieces<T>(P: set<set<T>>, inverse: map<set<T>, set<T>>)
    requires P <= inverse.Keys
    ensures forall B :: B in P ==> Pieces(B, inverse[B]) <= Refinement(P, inverse)
  {
  }

  /** Refinement keeps the union of the blocks. */
  lemma RefinementFlatten<T>(P: set<set<T>>, inverse: map<set<T>, set<T>>)
    requires P <= inverse.Keys
    ensures Flatten(Refinement(P, inverse)) == Flatten(P)
  {
    var R := Refinement(P, inverse);
    forall s | s in Flatten(P)
      ensures s in Flatten(R)
    {
      var B :| B in P && s in B;
      var A := if !Splits(B, inverse[B]) then B else if s in inverse[B] then B * inverse[B] else B - inverse[B];
      assert A in Pieces(B, inverse[B]);
      assert A in R && s in A;
    }
    forall s | s in Flatten(R)
      ensures s in Flatten(P)
    {
      var A :| A in R && s in A;
      var B := ParentOf(P, inverse, A);
    }
  }

  /** Every refined block lies inside the block it came from. */
  lemma RefinementRefines<T>(P: set<set<T>>, inverse: map<set<T>, set<T>>)
    requires P <= inverse.Keys
    ensures Refines(Refinement(P, inverse), P)
  {
    forall A | A in Refinement(P, inverse)
      ensures exists B :: B in P && A <= B
    {
      var B := ParentOf(P, inverse, A);
    }
  }

  /** Refinement of a disjoint family is disjoint. */
  lemma RefinementDisjoint<T>(P: set<set<T>>, inverse: map<set<T>, set<T>>)
    requires P <= inverse.Keys && Disjoint(P)
    ensures Disjoint(Refinement(P, inverse))
  {
    var R := Refinement(P, inverse);
    forall A, C | A in R && C in R && A != C
      ensures A !! C
    {
      var PA := ParentOf(P, inverse, A);
      var PC := ParentOf(P, inverse, C);
    }
  }

  /** Refinement creates no empty block: the empty block survives only if it was there. */
  lemma RefinementEmpty<T>(P: set<set<T>>, inverse: map<set<T>, set<T>>)
    requires P <= inverse.Keys
    ensures {} in Refinement(P, inverse) <==> {} in P
  {
    if {} in P {
      assert {} in Pieces({}, inverse[{}]);
    }
    if {} in Refinement(P, inverse) {
      var B := ParentOf(P, inverse, {});
    }
  }

  /** A disjoint family is its own refinement exactly when no block splits. */
  lemma RefinementFixed<T>(P: set<set<T>>, inverse: map<set<T>, set<T>>)
    requires P <= inverse.Keys && Disjoint(P)
    ensures Refinement(P, inverse) == P <==> forall B :: B in P ==> !Splits(B, inverse[B])
  {
    var R := Refinement(P, inverse);
    if R == P {
      forall B | B in P
        ensures !Splits(B, inverse[B])
      {
        if Splits(B, inverse[B]) {
          assert false;
        }
      }
    } else if forall B :: B in P ==> !Splits(B, inverse[B]) {
      forall A | A in R
        ensures A in P
      {
        var B := ParentOf(P, inverse, A);
      }
      forall B | B in P
        ensures B in R
      {
        assert B in Pieces(B, inverse[B]);
      }
      assert false;
    }
  }

  /** The treatment of one block `part` with inverse `inv` (dfa_minimizer.py:34-48):
      if both halves are non-empty they replace it, and `waiting` gains the
      halves (or the smaller half, or the larger half and `None`);
      otherwise the block is kept as it is. */
  method SplitBlock<T(==)>(part: set<T>, inv: set<T>, acc: set<set<T>>, waiting: set<Token<T>>)
    returns (acc': set<set<T>>, waiting': set<Token<T>>)
    requires Splits(part, inv) ==> part * inv !in acc && part - inv !in acc
    requires !Splits(part, inv) ==> part !in acc
    ensures Splits(part, inv) ==> acc' == acc + {part * inv, part - inv} && |acc'| == |acc| + 2
    ensures Splits(part, inv) ==> |waiting'| <= |waiting| + 2 && waiting' != {}
    ensures !Splits(part, inv) ==> acc' == acc + {part} && |acc'| == |acc| + 1 && waiting' == waiting
  {
    var split1 := part * inv;
    var split2 := part - inv;
    if split1 != {} && split2 != {} {
      var x :| x in split1;
      assert x !in split2;
      acc' := acc + {split1} + {split2};
      waiting' := PushSplit(waiting, part, split1, split2);
    } else {
      acc' := acc + {part};
      waiting' := waiting;
    }
  }

  /** One iteration of the loop over the blocks: `part`, not yet visited,
      joins the visited blocks `done`. */
  method VisitBlock<T(==)>(P: set<set<T>>, inverse: map<set<T>, set<T>>, waiting: set<Token<T>>,
                    ghost done: set<set<T>>, part: set<T>, acc: set<set<T>>, w: set<Token<T>>, ghost splits: nat)
    returns (acc': set<set<T>>, w': set<Token<T>>, ghost splits': nat)
    requires Disjoint(P) && P <= inverse.Keys
    requires done <= P && part in P && part !in done
    requires acc == Refinement(done, inverse)
    requires |acc| == |done| + splits
    requires |w| <= |waiting| + 2 * splits
    requires splits == 0 ==> w == waiting && acc == done
    requires splits > 0 ==> w != {}
    ensures acc' == Refinement(done + {part}, inverse)
    ensures |acc'| == |done + {part}| + splits'
    ensures |w'| <= |waiting| + 2 * splits'
    ensures splits' == 0 ==> w' == waiting && acc' == done + {part}
    ensures splits' > 0 ==> w' != {}
  {
    FreshParts(P, inverse, done, part);
    RefinementAdd(done, part, inverse);
    acc', w' := SplitBlock(part, inverse[part], acc, w);
    splits' := if Splits(part, inverse[part]) then splits + 1 else splits;
  }

  /** What `part` contributes to the refinement is not yet among the blocks
      the visited blocks `done` contributed. */
  lemma FreshParts<T>(P: set<set<T>>, inverse: map<set<T>, set<T>>, done: set<set<T>>, part: set<T>)
    requires Disjoint(P) && P <= inverse.Keys
    requires done <= P && part in P && part !in done
    ensures Refinement(done, inverse) !! Pieces(part, inverse[part])
  {
    var R := Refinement(done, inverse);
    RefinementFlatten(done, inverse);
    OutsideFlatten(P, done, part);
    forall X | X in Pieces(part, inverse[part])
      ensures X !in R
    {
      if X != {} {
        FreshBlock(R, X);
      } else {
        RefinementEmpty(done, inverse);
      }
    }
  }

  /** The loop over the blocks (dfa_minimizer.py:33-48), given the inverse of every block. */
  method RefineBlocks<T(==)>(P: set<set<T>>, inverse: map<set<T>, set<T>>, waiting: set<Token<T>>)
    returns (P': set<set<T>>, waiting': set<Token<T>>)
    requires Disjoint(P) && P <= inverse.Keys
    ensures P' == Refinement(P, inverse)
    ensures |P| <= |P'| && |waiting'| <= |waiting| + 2 * (|P'| - |P|)
    ensures P' == P ==> waiting' == waiting
    ensures P' != P ==> waiting' != {}
  {
    P' := {};
    waiting' := waiting;
    var todo := P;
    ghost var done: set<set<T>> := {};
    ghost var splits: nat := 0;
    while todo != {}
      invariant todo <= P && done == P - todo
      invariant P' == Refinement(done, inverse)
      invariant |P'| == |done| + splits
      invariant |waiting'| <= |waiting| + 2 * splits
      invariant splits == 0 ==> waiting' == waiting && P' == done
      invariant splits > 0 ==> waiting' != {}
      decreases todo
    {
      var part :| part in todo;
      P', waiting', splits := VisitBlock(P, inverse, waiting, done, part, P', waiting', splits);
      MoveToDone(P, todo, done, part);
      todo := todo - {part};
      done := done + {part};
    }
    AllDone(P, todo, done);
  }

  /** With nothing left to visit, every block has been visited. */
  lemma AllDone<T>(P: set<set<T>>, todo: set<set<T>>, done: set<set<T>>)
    requires done == P - todo && todo == {}
    ensures done == P
  {
  }

  /** Moving `part` from the blocks to visit to the visited ones. */
  lemma MoveToDone<T>(P: set<set<T>>, todo: set<set<T>>, done: set<set<T>>, part: set<T>)
    requires todo <= P && done == P - todo && part in todo
    ensures done + {part} == P - (todo - {part})
  {
  }

  /** `P'` and `waiting'` are what refinement can make of `P` and
      `waiting`: a disjoint family of sub-blocks with the same union, with
      no empty block unless `P` had one, and at most two more waiting
      elements per new block. */
  ghost predicate Progress<T>(P: set<set<T>>, waiting: set<Token<T>>, P': set<set<T>>, waiting': set<Token<T>>)
  {
    && Disjoint(P') && Flatten(P') == Flatten(P) && Refines(P', P)
    && ({} in P' <==> {} in P)
    && |P| <= |P'| && |waiting'| <= |waiting| + 2 * (|P'| - |P|)
  }

  lemma ProgressNone<T>(P: set<set<T>>, waiting: set<Token<T>>)
    requires Disjoint(P)
    ensures Progress(P, waiting, P, waiting)
  {
    assert Refines(P, P) by {
      forall B | B in P
        ensures exists B0 :: B0 in P && B <= B0
      {
        assert B <= B;
      }
    }
  }

  lemma ProgressTrans<T>(P0: set<set<T>>, w0: set<Token<T>>, P1: set<set<T>>, w1: set<Token<T>>,
                         P2: set<set<T>>, w2: set<Token<T>>)
    requires Progress(P0, w0, P1, w1) && Progress(P1, w1, P2, w2)
    ensures Progress(P0, w0, P2, w2)
  {
    RefinesTrans(P2, P1, P0);
  }

  /** One refinement pass for `symbol` (dfa_minimizer.py:21-50): every block is
      replaced by its pieces (the two halves if it splits, otherwise the
      block itself) and `waiting` is updated as dfa_minimizer.py:41-46 does,
      including the `None` token. `inv(symbol, B)` is the inverse of block
      `B`; `InverseOf` gives the one of dfa_minimizer.py:23-29. */
  method RefineBySymbol<T(==), S>(P: set<set<T>>, waiting: set<Token<T>>, inv: (S, set<T>) -> set<T>, symbol: S)
    returns (P': set<set<T>>, waiting': set<Token<T>>)
    requires Disjoint(P)
    ensures Progress(P, waiting, P', waiting')
    ensures forall B :: B in P ==> Pieces(B, inv(symbol, B)) <= P'
    ensures P' == P <==> StableFor(P, inv, symbol)
    ensures P' == P ==> waiting' == waiting
    ensures P' != P ==> waiting' != {}
    ensures P' == Step(P, inv, symbol)
  {
    var inverse := map B | B in P :: inv(symbol, B);
    P', waiting' := RefineBlocks(P, inverse, waiting);
    RefinementProgress(P, inverse, waiting, P', waiting');
    RefinementBySymbol(P, inv, symbol, inverse);
  }

  /** The refinement of a disjoint family, with the waiting bound that
      `RefineBlocks` keeps, is progress. */
  lemma RefinementProgress<T>(P: set<set<T>>, inverse: map<set<T>, set<T>>, waiting: set<Token<T>>,
                              P': set<set<T>>, waiting': set<Token<T>>)
    requires P <= inverse.Keys && Disjoint(P) && P' == Refinement(P, inverse)
    requires |P| <= |P'| && |waiting'| <= |waiting| + 2 * (|P'| - |P|)
    ensures Progress(P, waiting, P', waiting')
  {
    RefinementDisjoint(P, inverse);
    RefinementFlatten(P, inverse);
    RefinementRefines(P, inverse);
    RefinementEmpty(P, inverse);
  }

  /** The refinement by the inverses of one symbol holds the pieces of every
      block, and equals the family exactly when that symbol splits no block. */
  lemma RefinementBySymbol<T, S>(P: set<set<T>>, inv: (S, set<T>) -> set<T>, symbol: S, inverse: map<set<T>, set<T>>)
    requires Disjoint(P) && inverse == map B | B in P :: inv(symbol, B)
    ensures forall B :: B in P ==> Pieces(B, inv(symbol, B)) <= Refinement(P, inverse)
    ensures Refinement(P, inverse) == P <==> StableFor(P, inv, symbol)
  {
    RefinementFixed(P, inverse);
    RefinementHasPieces(P, inverse);
    forall B | B in P
      ensures inverse[B] == inv(symbol, B)
    {
    }
  }

  /** Blocks inside blocks that do not mix finals and non-finals do not mix them either. */
  lemma SeparatedRefined<T>(P': set<set<T>>, P: set<set<T>>, finals: set<T>)
    requires Refines(P', P) && Separated(P, finals)
    ensures Separated(P', finals)
  {
    forall B' | B' in P'
      ensures B' <= finals || B' !! finals
    {
      var B :| B in P && B' <= B;
    }
  }

  /** One iteration of `while waiting` after the pop: a refinement pass for
      every symbol in turn (dfa_minimizer.py:19-50). The pass leaves `waiting` empty
      only if no block split, so the blocks are then stable; a partition
      that no symbol splits comes back unchanged. */
  method RefinePass<T(==), S(==)>(P: set<set<T>>, waiting: set<Token<T>>, inv: (S, set<T>) -> set<T>, symbols: set<S>)
    returns (P': set<set<T>>, waiting': set<Token<T>>, ghost trace: seq<S>)
    requires Disjoint(P)
    ensures Progress(P, waiting, P', waiting')
    ensures waiting' == {} ==> StableOn(P', inv, symbols)
    ensures StableOn(P, inv, symbols) ==> P' == P && waiting' == waiting
    ensures (forall i :: 0 <= i < |trace| ==> trace[i] in symbols) && P' == SplitBy(P, inv, trace)
  {
    var todo := symbols;
    P', waiting' := P, waiting;
    ghost var split := false;
    trace := [];
    ProgressNone(P, waiting);
    while todo != {}
      invariant todo <= symbols
      invariant PassSoFar(P, waiting, inv, symbols, todo, P', waiting', split)
      invariant (forall i :: 0 <= i < |trace| ==> trace[i] in symbols) && P' == SplitBy(P, inv, trace)
      decreases todo
    {
      ghost var Q := P';
      var sym;
      todo, P', waiting', split, sym := PassSymbol(P, waiting, inv, symbols, todo, P', waiting', split);
      TraceStep(P, inv, symbols, trace, sym, Q, P');
      trace := trace + [sym];
    }
    PassDone(P, waiting, inv, symbols, todo, P', waiting', split);
  }

  /** One turn of `for symbol in symbols` (dfa_minimizer.py:21-50): a symbol
      not yet handled is taken out of `todo` and refines the partition. */
  method PassSymbol<T(==), S(==)>(ghost P: set<set<T>>, ghost waiting: set<Token<T>>, inv: (S, set<T>) -> set<T>,
                                  ghost symbols: set<S>, todo: set<S>, Q: set<set<T>>, w: set<Token<T>>, ghost split: bool)
    returns (todo': set<S>, Q': set<set<T>>, w': set<Token<T>>, ghost split': bool, symbol: S)
    requires todo != {} && todo <= symbols
    requires PassSoFar(P, waiting, inv, symbols, todo, Q, w, split)
    ensures todo' < todo
    ensures PassSoFar(P, waiting, inv, symbols, todo', Q', w', split')
    ensures symbol in symbols && Q' == Step(Q, inv, symbol)
  {
    symbol :| symbol in todo;
    todo' := todo - {symbol};
    Q', w' := RefineBySymbol(Q, w, inv, symbol);
    split' := split || Q' != Q;
    PassStep(P, waiting, inv, symbols, todo, symbol, Q, w, split, Q', w', split');
  }

  /** A pass that has refined `P` by `trace` and then refines by `symbol`
      has refined `P` by `trace + [symbol]`. */
  lemma TraceStep<T, S>(P: set<set<T>>, inv: (S, set<T>) -> set<T>, symbols: set<S>, trace: seq<S>, symbol: S,
                        Q: set<set<T>>, Q': set<set<T>>)
    requires (forall i :: 0 <= i < |trace| ==> trace[i] in symbols) && Q == SplitBy(P, inv, trace)
    requires symbol in symbols && Q' == Step(Q, inv, symbol)
    ensures (forall i :: 0 <= i < |trace + [symbol]| ==> (trace + [symbol])[i] in symbols)
    ensures Q' == SplitBy(P, inv, trace + [symbol])
  {
    SplitBySnoc(P, inv, trace, symbol);
  }

  /** What holds after the symbols outside `todo` have been handled in a
      pass that started from `P` and `waiting`: `split` records whether a
      block split so far. Without a split nothing changed and the handled
      symbols split no block; with one `waiting` is non-empty; and a
      partition that no symbol splits never records a split. */
  ghost predicate PassSoFar<T, S>(P: set<set<T>>, waiting: set<Token<T>>, inv: (S, set<T>) -> set<T>, symbols: set<S>,
                                  todo: set<S>, P': set<set<T>>, waiting': set<Token<T>>, split: bool)
  {
    && Progress(P, waiting, P', waiting')
    && (!split ==> P' == P && waiting' == waiting && StableOn(P, inv, symbols - todo))
    && (split ==> waiting' != {})
    && (StableOn(P, inv, symbols) ==> !split)
  }

  /** Handling one more symbol as `RefineBySymbol` does keeps `PassSoFar`. */
  lemma PassStep<T, S>(P: set<set<T>>, waiting: set<Token<T>>, inv: (S, set<T>) -> set<T>, symbols: set<S>,
                       todo: set<S>, symbol: S, Q: set<set<T>>, w: set<Token<T>>, split: bool,
                       Q': set<set<T>>, w': set<Token<T>>, split': bool)
    requires symbol in todo && todo <= symbols
    requires PassSoFar(P, waiting, inv, symbols, todo, Q, w, split)
    requires Progress(Q, w, Q', w')
    requires Q' == Q <==> StableFor(Q, inv, symbol)
    requires Q' == Q ==> w' == w
    requires Q' != Q ==> w' != {}
    requires split' == (split || Q' != Q)
    ensures PassSoFar(P, waiting, inv, symbols, todo - {symbol}, Q', w', split')
  {
    StableOnFor(P, inv, symbols, symbol);
    ProgressTrans(P, waiting, Q, w, Q', w');
    if !split' {
      StableOnAdd(P, inv, symbols, todo, symbol);
    }
  }

  /** At the end of a pass, `PassSoFar` gives `RefinePass`'s contract. */
  lemma PassDone<T, S>(P: set<set<T>>, waiting: set<Token<T>>, inv: (S, set<T>) -> set<T>, symbols: set<S>,
                       todo: set<S>, P': set<set<T>>, waiting': set<Token<T>>, split: bool)
    requires todo == {} && PassSoFar(P, waiting, inv, symbols, todo, P', waiting', split)
    ensures Progress(P, waiting, P', waiting')
    ensures waiting' == {} ==> StableOn(P', inv, symbols)
    ensures StableOn(P, inv, symbols) ==> P' == P && waiting' == waiting
  {
    assert symbols - todo == symbols;
  }

  /** A partition stable on a set of symbols is stable for each of them. */
  lemma StableOnFor<T, S>(P: set<set<T>>, inv: (S, set<T>) -> set<T>, symbols: set<S>, a: S)
    requires a in symbols
    ensures StableOn(P, inv, symbols) ==> StableFor(P, inv, a)
  {
  }

  /** Taking one more symbol off the to-do set keeps the stability record. */
  lemma StableOnAdd<T, S>(P: set<set<T>>, inv: (S, set<T>) -> set<T>, symbols: set<S>, todo: set<S>, a: S)
    requires StableOn(P, inv, symbols - todo) && StableFor(P, inv, a)
    ensures StableOn(P, inv, symbols - (todo - {a}))
  {
    forall B, b | B in P && b in symbols - (todo - {a})
      ensures !Splits(B, inv(b, B))
    {
      if b != a {
        assert b in symbols - todo;
      }
    }
  }

  /** The refinement loop (dfa_minimizer.py:12-50): starting from `{finals, states -
      finals}`, passes run until `waiting` is empty. Every pass with a
      split adds to `waiting` at most two elements per new block, and every
      pop removes one, so `3 * (|states| + 1 - |P|) + |waiting|` decreases. */
  method Refine<T(==), S(==)>(states: set<T>, finals: set<T>, inv: (S, set<T>) -> set<T>, symbols: set<S>)
    returns (P: set<set<T>>)
    ensures IsPartition(P, states + finals)
    ensures Separated(P, finals)
    ensures {} in P <==> finals == {} || states - finals == {}
    ensures StableOn(P, inv, symbols)
    ensures StableOn({finals, states - finals}, inv, symbols) ==> P == {finals, states - finals}
    ensures exists syms: seq<S> :: (forall i :: 0 <= i < |syms| ==> syms[i] in symbols) && P == SplitBy({finals, states - finals}, inv, syms)
  {
    P := {finals, states - finals};
    ghost var P0 := P;
    var waiting: set<Token<T>> := {Blk(finals), Blk(states - finals)};
    ghost var trace: seq<S> := [];
    InitialPartition(states, finals);
    ghost var N := |states + finals| + 1;
    while waiting != {}
      invariant IsPartition(P, states + finals) && Separated(P, finals)
      invariant {} in P <==> finals == {} || states - finals == {}
      invariant |P| <= N
      invariant waiting == {} ==> StableOn(P, inv, symbols)
      invariant StableOn(P0, inv, symbols) ==> P == P0
      invariant (forall i :: 0 <= i < |trace| ==> trace[i] in symbols) && P == SplitBy(P0, inv, trace)
      decreases 3 * (N - |P|) + |waiting|
    {
      ghost var tb := trace;
      ghost var t;
      P, waiting, t := RefineRound(states + finals, finals, inv, symbols, P0, P, waiting);
      trace := trace + t;
      SplitByAppend(P0, inv, tb, t);
    }
  }

  /** One turn of `while waiting` (dfa_minimizer.py:15-50): a token is popped
      and a pass refines the partition. The result is still a separated
      partition, at most two tokens join `waiting` per new block, and a
      partition that no symbol splits is kept as it is. */
  method RefineRound<T(==), S(==)>(ghost U: set<T>, ghost finals: set<T>, inv: (S, set<T>) -> set<T>, symbols: set<S>,
                                   ghost P0: set<set<T>>, P: set<set<T>>, waiting: set<Token<T>>)
    returns (P': set<set<T>>, waiting': set<Token<T>>, ghost trace: seq<S>)
    requires waiting != {}
    requires IsPartition(P, U) && Separated(P, finals)
    requires StableOn(P0, inv, symbols) ==> P == P0
    ensures IsPartition(P', U) && Separated(P', finals)
    ensures |P'| <= |U| + 1
    ensures {} in P' <==> {} in P
    ensures |P| <= |P'| && |waiting'| < |waiting| + 2 * (|P'| - |P|)
    ensures waiting' == {} ==> StableOn(P', inv, symbols)
    ensures StableOn(P0, inv, symbols) ==> P' == P0
    ensures (forall i :: 0 <= i < |trace| ==> trace[i] in symbols) && P' == SplitBy(P, inv, trace)
  {
    var current :| current in waiting;
    var rest := waiting - {current};
    P', waiting', trace := RefinePass(P, rest, inv, symbols);
    ProgressKeeps(P, rest, P', waiting', U, finals);
    StableKept(P0, P, P', inv, symbols);
  }

  /** A partition that no symbol splits stays the current partition of
      `Refine` when every pass leaves a stable partition unchanged. */
  lemma StableKept<T, S>(P0: set<set<T>>, P: set<set<T>>, P': set<set<T>>, inv: (S, set<T>) -> set<T>, symbols: set<S>)
    requires StableOn(P0, inv, symbols) ==> P == P0
    requires StableOn(P, inv, symbols) ==> P' == P
    ensures StableOn(P0, inv, symbols) ==> P' == P0
  {
  }

  /** The initial partition `{finals, states - finals}` (dfa_minimizer.py:12). */
  lemma InitialPartition<T>(states: set<T>, finals: set<T>)
    ensures IsPartition({finals, states - finals}, states + finals)
    ensures Separated({finals, states - finals}, finals)
    ensures |{finals, states - finals}| <= |states + finals| + 1
  {
    var P := {finals, states - finals};
    FlattenAdd({}, finals);
    assert {} + {finals} == {finals};
    FlattenAdd({finals}, states - finals);
    assert {finals} + {states - finals} == P;
    assert Disjoint(P) by {
      assert finals !! states - finals;
    }
    if states + finals == {} {
      assert finals == {} && states - finals == {};
      assert P == {{}};
    } else {
      assert |P| <= 2;
    }
  }

  /** Refinement progress keeps a separating partition a separating
      partition, and the number of blocks bounded. */
  lemma ProgressKeeps<T>(P: set<set<T>>, w: set<Token<T>>, P': set<set<T>>, w': set<Token<T>>,
                         U: set<T>, finals: set<T>)
    requires IsPartition(P, U) && Separated(P, finals) && Progress(P, w, P', w')
    ensures IsPartition(P', U) && Separated(P', finals)
    ensures |P'| <= |U| + 1
  {
    SeparatedRefined(P', P, finals);
    FamilySize(P');
  }

  /** `state_map` (dfa_minimizer.py:53): every state of every block is mapped to a block
      that holds it. */
  method StateMap<T(==)>(P: set<set<T>>) returns (m: map<T, set<T>>)
    ensures m.Keys == Flatten(P)
    ensures forall s :: s in m ==> m[s] in P && s in m[s]
  {
    m := map[];
    var todo := P;
    while todo != {}
      invariant todo <= P
      invariant m.Keys == Flatten(P - todo)
      invariant forall s :: s in m ==> m[s] in P && s in m[s]
      decreases todo
    {
      var part :| part in todo;
      FlattenAdd(P - todo, part);
      var rest := part;
      while rest != {}
        invariant rest <= part
        invariant m.Keys == Flatten(P - todo) + (part - rest)
        invariant forall s :: s in m ==> m[s] in P && s in m[s]
        decreases rest
      {
        var s :| s in rest;
        m := m[s := part];
        rest := rest - {s};
      }
      assert P - (todo - {part}) == (P - todo) + {part};
      todo := todo - {part};
    }
  }

  /** The induced transitions (dfa_minimizer.py:56-59): each input transition
      `(s, a) -> t` writes `(m[s], a) -> m[t]`, a later write to the same
      key replacing an earlier one. A state with no block is a `KeyError`. */
  method QuotientTransitions<T(==)>(trans: map<(T, Sym), T>, m: map<T, set<T>>)
    returns (r: Result<map<(set<T>, Sym), set<T>>, T>)
    ensures r.Success? <==> forall k :: k in trans ==> k.0 in m && trans[k] in m
    ensures r.Failure? ==> r.error !in m && exists k :: k in trans && (r.error == k.0 || r.error == trans[k])
    ensures r.Success? ==> forall s, a :: (s, a) in trans ==> (m[s], a) in r.value
    ensures r.Success? ==> forall B, a :: (B, a) in r.value ==>
      exists s :: (s, a) in trans && s in m && trans[(s, a)] in m && m[s] == B && m[trans[(s, a)]] == r.value[(B, a)]
  {
    var out: map<(set<T>, Sym), set<T>> := map[];
    var todo := trans.Keys;
    while todo != {}
      invariant todo <= trans.Keys
      invariant forall k :: k in trans && k !in todo ==> k.0 in m && trans[k] in m
      invariant forall s, a :: (s, a) in trans && (s, a) !in todo ==> (m[s], a) in out
      invariant forall B, a :: (B, a) in out ==>
        exists s :: (s, a) in trans && s in m && trans[(s, a)] in m && m[s] == B && m[trans[(s, a)]] == out[(B, a)]
      decreases todo
    {
      var k :| k in todo;
      todo := todo - {k};
      if k.0 !in m {
        return Failure(k.0);
      }
      if trans[k] !in m {
        return Failure(trans[k]);
      }
      out := out[(m[k.0], k.1) := m[trans[k]]];
    }
    r := Success(out);
  }

  /** Every state the transitions of `dfa` leave from or arrive at lies in
      `states + finals`, the states the initial partition covers. */
  predicate TransitionsCovered(dfa: Dfa<DState>)
  {
    forall k :: k in dfa.trans ==> k.0 in dfa.states + dfa.finals && dfa.trans[k] in dfa.states + dfa.finals
  }

  /** Stability with the inverse of dfa_minimizer.py:23-29 is `Stable`. */
  lemma StableOfInverse(P: set<Block>, trans: DfaTrans)
    ensures StableOn(P, InverseOf(trans), Symbols(trans)) <==> Stable(P, trans)
  {
    forall B, a | B in P && a in Symbols(trans)
      ensures InverseOf(trans)(a, B) == Inverse(trans, a, B)
    {
    }
  }

  /** What dfa_minimizer.py:53-64 builds from a refined partition `q.states` of
      `dfa`: the start block holds the input start, the final
      blocks are the blocks holding a final state, every output transition
      goes between blocks and comes from an input transition between
      states of those two blocks, and
      every input transition has an output transition from its block on
      its symbol to a block. */
  ghost predicate IsQuotient(dfa: Dfa<DState>, q: Dfa<Block>)
  {
    && q.start in q.states && dfa.start in q.start
    && (forall B :: B in q.finals <==> B in q.states && B * dfa.finals != {})
    && (forall B, a :: (B, a) in q.trans ==>
          && B in q.states && q.trans[(B, a)] in q.states
          && exists s :: s in B && (s, a) in dfa.trans && dfa.trans[(s, a)] in q.trans[(B, a)])
    && (forall s, a, B :: (s, a) in dfa.trans && B in q.states && s in B ==>
          (B, a) in q.trans && q.trans[(B, a)] in q.states)
  }

  /** `minimize_dfa` (dfa_minimizer.py:4-64). The blocks of the result partition
      `states + finals`, never mix final and non-final states, hold an empty
      block exactly when `finals` or `states - finals` is empty, and no
      symbol splits any of them; the rest of the result is the quotient
      of `dfa` by them. A state outside every block raises `KeyError`:
      first from the transitions (dfa_minimizer.py:57), then from the start
      (dfa_minimizer.py:61). */
  method MinimizeDfa(dfa: Dfa<DState>) returns (r: Result<Dfa<Block>, MinimizeError>)
    ensures r.Success? <==> TransitionsCovered(dfa) && dfa.start in dfa.states + dfa.finals
    ensures r.Failure? ==> r.error.missing !in dfa.states + dfa.finals
    ensures r.Failure? && TransitionsCovered(dfa) ==> r.error.missing == dfa.start
    ensures r.Failure? && !TransitionsCovered(dfa) ==>
      exists k :: k in dfa.trans && (r.error.missing == k.0 || r.error.missing == dfa.trans[k])
    ensures r.Success? ==> IsPartition(r.value.states, dfa.states + dfa.finals)
    ensures r.Success? ==> Separated(r.value.states, dfa.finals)
    ensures r.Success? ==> ({} in r.value.states <==> dfa.finals == {} || dfa.states - dfa.finals == {})
    ensures r.Success? ==> Stable(r.value.states, dfa.trans)
    ensures r.Success? ==> IsQuotient(dfa, r.value)
    ensures r.Success? ==> forall B :: B in r.value.finals ==> B <= dfa.finals
    ensures r.Success? && Stable({dfa.finals, dfa.states - dfa.finals}, dfa.trans) ==>
      r.value.states == {dfa.finals, dfa.states - dfa.finals}
    ensures r.Success? ==> exists syms: seq<Sym> ::
      && (forall i :: 0 <= i < |syms| ==> syms[i] in Symbols(dfa.trans))
      && r.value.states == SplitBy({dfa.finals, dfa.states - dfa.finals}, InverseOf(dfa.trans), syms)
  {
    var P := Refine(dfa.states, dfa.finals, InverseOf(dfa.trans), Symbols(dfa.trans));
    StableOfInverse(P, dfa.trans);
    StableOfInverse({dfa.finals, dfa.states - dfa.finals}, dfa.trans);
    r := Quotient(dfa, P);
  }

  /** dfa_minimizer.py:53-64: the quotient of `dfa` by a partition `P` of its states,
      or the `KeyError` of the first lookup of a state outside `P`. */
  method Quotient(dfa: Dfa<DState>, P: set<Block>) returns (r: Result<Dfa<Block>, MinimizeError>)
    requires IsPartition(P, dfa.states + dfa.finals)
    ensures r.Success? <==> TransitionsCovered(dfa) && dfa.start in dfa.states + dfa.finals
    ensures r.Failure? ==> r.error.missing !in dfa.states + dfa.finals
    ensures r.Failure? && TransitionsCovered(dfa) ==> r.error.missing == dfa.start
    ensures r.Failure? && !TransitionsCovered(dfa) ==>
      exists k :: k in dfa.trans && (r.error.missing == k.0 || r.error.missing == dfa.trans[k])
    ensures r.Success? ==> r.value.states == P && IsQuotient(dfa, r.value)
  {
    var m := StateMap(P);
    var t := QuotientTransitions(dfa.trans, m);
    CoveredByMap(dfa, m);
    if t.Failure? {
      return Failure(KeyError(t.error));
    }
    if dfa.start !in m {
      return Failure(KeyError(dfa.start));
    }
    var q := QuotientOf(dfa, P, m, t.value);
    r := Success(q);
  }

  /** With the keys of `m` the states of `dfa`, a transition end outside
      the keys is a transition end outside the states. */
  lemma CoveredByMap(dfa: Dfa<DState>, m: map<DState, Block>)
    requires m.Keys == dfa.states + dfa.finals
    ensures TransitionsCovered(dfa) <==> forall k :: k in dfa.trans ==> k.0 in m && dfa.trans[k] in m
  {
  }

  /** dfa_minimizer.py:61-64 once every lookup has succeeded. */
  method QuotientOf(dfa: Dfa<DState>, P: set<Block>, m: map<DState, Block>, out: map<(Block, Sym), Block>)
    returns (q: Dfa<Block>)
    requires Disjoint(P) && dfa.finals <= Flatten(P) && dfa.start in m
    requires m.Keys == Flatten(P) && forall s :: s in m ==> m[s] in P && s in m[s]
    requires forall s, a :: (s, a) in dfa.trans ==> s in m && dfa.trans[(s, a)] in m && (m[s], a) in out
    requires forall B, a :: (B, a) in out ==>
      exists s :: (s, a) in dfa.trans && s in m && dfa.trans[(s, a)] in m && m[s] == B && m[dfa.trans[(s, a)]] == out[(B, a)]
    ensures q.states == P && IsQuotient(dfa, q)
  {
    var finals := set f | f in dfa.finals :: m[f];
    q := Dfa(P, m[dfa.start], finals, out);
    QuotientFinals(P, m, dfa.finals);
    QuotientSound(P, m, dfa.trans, out);
    QuotientComplete(P, m, dfa.trans, out);
  }

  /** The image of the final states under the state map is the set of
      blocks that hold a final state (dfa_minimizer.py:62). */
  lemma QuotientFinals(P: set<Block>, m: map<DState, Block>, finals: set<DState>)
    requires Disjoint(P) && finals <= Flatten(P)
    requires m.Keys == Flatten(P) && forall s :: s in m ==> m[s] in P && s in m[s]
    ensures forall B :: B in (set f | f in finals :: m[f]) <==> B in P && B * finals != {}
  {
    var image := set f | f in finals :: m[f];
    forall B | B in image
      ensures B in P && B * finals != {}
    {
      var f :| f in finals && m[f] == B;
      assert f in B * finals;
    }
    forall B | B in P && B * finals != {}
      ensures B in image
    {
      var f :| f in B * finals;
      BlockInFlatten(P, B);
      UniqueBlock(P, B, m[f], f);
    }
  }

  /** Every output transition goes from a block to a block and comes from an
      input transition between states of those two blocks. */
  lemma QuotientSound(P: set<Block>, m: map<DState, Block>, trans: DfaTrans, out: map<(Block, Sym), Block>)
    requires forall s :: s in m ==> m[s] in P && s in m[s]
    requires forall B, a :: (B, a) in out ==>
      exists s :: (s, a) in trans && s in m && trans[(s, a)] in m && m[s] == B && m[trans[(s, a)]] == out[(B, a)]
    ensures forall B, a :: (B, a) in out ==>
      && B in P && out[(B, a)] in P
      && exists s :: s in B && (s, a) in trans && trans[(s, a)] in out[(B, a)]
  {
    forall B, a | (B, a) in out
      ensures B in P && out[(B, a)] in P
      ensures exists s :: s in B && (s, a) in trans && trans[(s, a)] in out[(B, a)]
    {
      var s :| (s, a) in trans && s in m && trans[(s, a)] in m && m[s] == B && m[trans[(s, a)]] == out[(B, a)];
      assert s in B && trans[(s, a)] in out[(B, a)];
    }
  }

  /** Every input transition has an output transition from its block on
      its symbol, to a block. */
  lemma QuotientComplete(P: set<Block>, m: map<DState, Block>, trans: DfaTrans, out: map<(Block, Sym), Block>)
    requires Disjoint(P)
    requires forall s :: s in m ==> m[s] in P && s in m[s]
    requires forall s, a :: (s, a) in trans ==> s in m && trans[(s, a)] in m && (m[s], a) in out
    requires forall B, a :: (B, a) in out ==>
      exists s :: (s, a) in trans && s in m && trans[(s, a)] in m && m[s] == B && m[trans[(s, a)]] == out[(B, a)]
    ensures forall s, a, B :: (s, a) in trans && B in P && s in B ==> (B, a) in out && out[(B, a)] in P
  {
    forall s, a, B | (s, a) in trans && B in P && s in B
      ensures (B, a) in out && out[(B, a)] in P
    {
      UniqueBlock(P, B, m[s], s);
      var s' :| (s', a) in trans && s' in m && trans[(s', a)] in m && m[s'] == B && m[trans[(s', a)]] == out[(B, a)];
    }
  }
}

=== FILE: epsilon_closure.dfy ===
/** Epsilon-closure (nfa_to_dfa.py, `epsilon_closure`).

    The reference definition is reachability: the closure of S is the set of states
    at the end of some epsilon path that starts in S. The method is the
    breadth-first worklist of the source and is proved to compute exactly
    that set.
 */
module EpsilonClosure {
  import opened Automata

  /** The epsilon-successor function: `EpsMoves(trans)(s)` is the set of
      ε-targets of `s`, empty when `s` or `ε` has no entry (nfa_to_dfa.py:10). */
  function EpsMoves(trans: NfaTrans): NState -> set<NState>
  {
    s => Targets(trans, s, EPS)
  }

  /** Every state that some epsilon move leads to. */
  function EpsTargets(trans: NfaTrans): set<NState>
  {
    set s, t | s in trans && t in EpsMoves(trans)(s) :: t
  }

  /** A non-empty sequence of states, each an epsilon-successor of the one before. */
  ghost predicate EpsPath(trans: NfaTrans, p: seq<NState>)
  {
    |p| > 0 && forall i :: 0 < i < |p| ==> p[i] in EpsMoves(trans)(p[i - 1])
  }

  /** `t` is reachable from some state of `S` by zero or more epsilon moves. */
  ghost predicate EpsReaches(trans: NfaTrans, S: set<NState>, t: NState)
  {
    exists p :: EpsPath(trans, p) && p[0] in S && p[|p| - 1] == t
  }

  /** The epsilon-closure of `S`: the states epsilon-reachable from `S`. */
  ghost function Closure(trans: NfaTrans, S: set<NState>): set<NState>
  {
    set t | t in S + EpsTargets(trans) && EpsReaches(trans, S, t)
  }

  /** No successor leaves `X`; with `succ := EpsMoves(trans)`, no epsilon
      move leaves `X`. */
  ghost predicate Closed<T>(succ: T -> set<T>, X: set<T>)
  {
    forall s :: s in X ==> succ(s) <= X
  }

  /** The closure contains its argument. */
  lemma ClosureContains(trans: NfaTrans, S: set<NState>)
    ensures S <= Closure(trans, S)
  {
    forall s | s in S
      ensures s in Closure(trans, S)
    {
      assert EpsPath(trans, [s]);
    }
  }

  /** The closure is closed under epsilon moves. */
  lemma ClosureClosed(trans: NfaTrans, S: set<NState>)
    ensures Closed(EpsMoves(trans), Closure(trans, S))
  {
    forall s, t | s in Closure(trans, S) && t in EpsMoves(trans)(s)
      ensures t in Closure(trans, S)
    {
      var p :| EpsPath(trans, p) && p[0] in S && p[|p| - 1] == s;
      var q := p + [t];
      assert EpsPath(trans, q);
      assert t in EpsTargets(trans);
    }
  }

  /** An epsilon path that starts in an epsilon-closed set stays in it. */
  lemma {:induction false} PathStaysIn(trans: NfaTrans, p: seq<NState>, X: set<NState>)
    requires EpsPath(trans, p) && p[0] in X && Closed(EpsMoves(trans), X)
    ensures p[|p| - 1] in X
    decreases |p|
  {
    if |p| > 1 {
      var q := p[..|p| - 1];
      assert EpsPath(trans, q);
      PathStaysIn(trans, q, X);
      assert p[|p| - 1] in EpsMoves(trans)(q[|q| - 1]);
    }
  }

  /** The closure is the least epsilon-closed superset of `S`. */
  lemma ClosureLeast(trans: NfaTrans, S: set<NState>, X: set<NState>)
    requires S <= X && Closed(EpsMoves(trans), X)
    ensures Closure(trans, S) <= X
  {
    forall t | t in Closure(trans, S)
      ensures t in X
    {
      var p :| EpsPath(trans, p) && p[0] in S && p[|p| - 1] == t;
      PathStaysIn(trans, p, X);
    }
  }

  /** The closure of the empty set is empty. */
  lemma ClosureOfEmpty(trans: NfaTrans)
    ensures Closure(trans, {}) == {}
  {
    ClosureLeast(trans, {}, {});
  }

  /** A state without epsilon moves closes to itself. */
  lemma ClosureNoEpsMoves(trans: NfaTrans, s: NState)
    requires EpsMoves(trans)(s) == {}
    ensures Closure(trans, {s}) == {s}
  {
    ClosureContains(trans, {s});
    ClosureLeast(trans, {s}, {s});
  }

  /** Closing twice is closing once. */
  lemma ClosureIdempotent(trans: NfaTrans, S: set<NState>)
    ensures Closure(trans, Closure(trans, S)) == Closure(trans, S)
  {
    ClosureContains(trans, Closure(trans, S));
    ClosureClosed(trans, S);
    ClosureLeast(trans, Closure(trans, S), Closure(trans, S));
  }

  /** A larger argument has a larger closure. */
  lemma ClosureMonotone(trans: NfaTrans, S: set<NState>, T: set<NState>)
    requires S <= T
    ensures Closure(trans, S) <= Closure(trans, T)
  {
    ClosureContains(trans, T);
    ClosureClosed(trans, T);
    ClosureLeast(trans, S, Closure(trans, T));
  }

  /** The closure adds only targets of epsilon moves. */
  lemma ClosureWithin(trans: NfaTrans, S: set<NState>)
    ensures Closure(trans, S) <= S + EpsTargets(trans)
    ensures EpsTargets(trans) <= AllTargets(trans)
  {
  }

  /** The members of `S`, in some order, each once (`deque(states)`). */
  method Enumerate<T(==)>(S: set<T>) returns (q: seq<T>)
    ensures forall x :: x in q <==> x in S
    ensures |q| == |S|
  {
    q := [];
    var rest := S;
    while rest != {}
      invariant rest <= S
      invariant forall x :: x in q <==> x in S - rest
      invariant |q| + |rest| == |S|
      decreases rest
    {
      var x :| x in rest;
      q := q + [x];
      rest := rest - {x};
    }
  }

  /** The inner loop of the traversal: every successor not yet in `closure`
      joins it and is appended to the queue (nfa_to_dfa.py:10-13). */
  method Visit<T(==)>(moves: set<T>, closure: set<T>, queue: seq<T>)
    returns (closure': set<T>, queue': seq<T>)
    ensures closure' == closure + moves
    ensures forall s :: s in queue' <==> s in queue || s in moves - closure
    ensures closure' == closure ==> queue' == queue
  {
    closure', queue' := closure, queue;
    var rest := moves;
    while rest != {}
      invariant rest <= moves
      invariant closure' == closure + (moves - rest)
      invariant forall s :: s in queue' <==> s in queue || s in (moves - rest) - closure
      invariant closure' == closure ==> queue' == queue
      decreases rest
    {
      var t :| t in rest;
      rest := rest - {t};
      if t !in closure' {
        closure' := closure' + {t};
        queue' := queue' + [t];
      }
    }
  }

  /** Every epsilon-successor is an epsilon target. */
  lemma MovesWithinTargets(trans: NfaTrans, s: NState)
    ensures EpsMoves(trans)(s) <= EpsTargets(trans)
  {
  }

  /** The worklist loop (nfa_to_dfa.py:5-13), for the successor function
      `succ` (the epsilon moves) whose values lie in `U`: starting from `S`
      it collects a `succ`-closed set that stays inside every `succ`-closed
      `bound` containing `S`. */
  method Traverse<T(==)>(S: set<T>, succ: T -> set<T>, ghost U: set<T>, ghost bound: set<T>) returns (closure: set<T>)
    requires S <= U && forall s :: succ(s) <= U
    requires S <= bound && Closed(succ, bound)
    ensures S <= closure <= bound
    ensures Closed(succ, closure)
  {
    closure := S;
    var queue := Enumerate(S);
    while queue != []
      invariant S <= closure <= U
      invariant closure <= bound
      invariant forall s :: s in queue ==> s in closure
      invariant forall s :: s in closure && s !in queue ==> succ(s) <= closure
      decreases U - closure, |queue|
    {
      var state := queue[0];
      ghost var closure0, queue0 := closure, queue;
      queue := queue[1..];
      closure, queue := Visit(succ(state), closure, queue);
      forall s | s in closure && s !in queue
        ensures succ(s) <= closure
      {
        if s != state {
          assert s in closure0 && s !in queue0;
        }
      }
    }
  }

  /** Breadth-first epsilon-closure: each state enters the queue at most once. */
  method ComputeClosure(S: set<NState>, trans: NfaTrans) returns (r: set<NState>)
    ensures r == Closure(trans, S)
  {
    ClosureContains(trans, S);
    ClosureClosed(trans, S);
    forall s
      ensures EpsMoves(trans)(s) <= EpsTargets(trans)
    {
      MovesWithinTargets(trans, s);
    }
    r := Traverse(S, EpsMoves(trans), S + EpsTargets(trans), Closure(trans, S));
    ClosureLeast(trans, S, r);
  }
}

=== FILE: partitions.dfy ===
/** Families of blocks, as the minimizer keeps them.

    A partition of `U` is a set of pairwise disjoint blocks whose union is
    `U`. Because blocks are themselves sets, the empty block can occur at
    most once. The definitions are generic in the element type: the
    minimizer's elements are DFA states, whose own structure plays no role.
 */
module Partitions {
  /** The union of the blocks of `P`. */
  ghost function Flatten<T>(P: set<set<T>>): set<T>
  {
    set B, s | B in P && s in B :: s
  }

  /** Distinct blocks share no state. */
  ghost predicate Disjoint<T>(P: set<set<T>>)
  {
    forall A, B :: A in P && B in P && A != B ==> A !! B
  }

  ghost predicate IsPartition<T>(P: set<set<T>>, U: set<T>)
  {
    Disjoint(P) && Flatten(P) == U
  }

  /** Every block of `P'` lies inside some block of `P`. */
  ghost predicate Refines<T>(P': set<set<T>>, P: set<set<T>>)
  {
    forall B' :: B' in P' ==> exists B :: B in P && B' <= B
  }

  lemma FlattenAdd<T>(P: set<set<T>>, B: set<T>)
    ensures Flatten(P + {B}) == Flatten(P) + B
  {
  }

  /** Each block lies inside the union. */
  lemma BlockInFlatten<T>(P: set<set<T>>, B: set<T>)
    requires B in P
    ensures B <= Flatten(P)
  {
  }

  /** A non-empty block disjoint from the union of `P` is not one of its blocks. */
  lemma FreshBlock<T>(P: set<set<T>>, B: set<T>)
    requires B != {} && B !! Flatten(P)
    ensures B !in P
  {
    if B in P {
      BlockInFlatten(P, B);
    }
  }

  /** A block that is not in `P` is disjoint from the union of `P` when all
      of them come from one disjoint family. */
  lemma OutsideFlatten<T>(Q: set<set<T>>, P: set<set<T>>, B: set<T>)
    requires Disjoint(Q) && P <= Q && B in Q && B !in P
    ensures B !! Flatten(P)
  {
  }

  /** A disjoint family of non-empty blocks has no more blocks than states. */
  lemma {:induction false} NonEmptyFamilySize<T>(P: set<set<T>>)
    requires Disjoint(P) && {} !in P
    ensures |P| <= |Flatten(P)|
    decreases |P|
  {
    if P != {} {
      var B :| B in P;
      var P' := P - {B};
      NonEmptyFamilySize(P');
      FlattenAdd(P', B);
      assert P == P' + {B};
      OutsideFlatten(P, P', B);
      assert |Flatten(P)| == |Flatten(P')| + |B|;
      var s :| s in B;
      assert |B| >= 1;
    }
  }

  /** A disjoint family has at most one block more than it has states. */
  lemma FamilySize<T>(P: set<set<T>>)
    requires Disjoint(P)
    ensures |P| <= |Flatten(P)| + 1
  {
    var P' := P - {{}};
    NonEmptyFamilySize(P');
    assert Flatten(P') == Flatten(P);
    assert |P| <= |P'| + 1;
  }

  /** Refinement is transitive. */
  lemma RefinesTrans<T>(P2: set<set<T>>, P1: set<set<T>>, P0: set<set<T>>)
    requires Refines(P2, P1) && Refines(P1, P0)
    ensures Refines(P2, P0)
  {
    forall B2 | B2 in P2
      ensures exists B0 :: B0 in P0 && B2 <= B0
    {
      var B1 :| B1 in P1 && B2 <= B1;
      var B0 :| B0 in P0 && B1 <= B0;
    }
  }

  /** In a disjoint family, a state lies in at most one block. */
  lemma UniqueBlock<T>(P: set<set<T>>, A: set<T>, B: set<T>, s: T)
    requires Disjoint(P) && A in P && B in P && s in A && s in B
    ensures A == B
  {
  }
}

=== FILE: subset_construction.dfy ===
/** Rabin–Scott subset construction (nfa_to_dfa.py, `convert_nfa_to_dfa`).

    DFA states are epsilon-closed sets of NFA states, keyed by set equality.
    The worklist starts from the closure of the start state; each popped
    composite state that is new is recorded, marked final when it meets the
    NFA's finals, and given one transition per non-epsilon symbol whose move
    is non-empty. The result is characterised exactly: its states are the
    non-empty sets the NFA can be in after reading some word, so it does not
    depend on the order of the worklist or of set iteration.
 */
module SubsetConstruction {
  import opened Automata
  import opened EpsilonClosure

  /** The union of the `a`-targets of the members of `C` (nfa_to_dfa.py:48-50). */
  function Move(trans: NfaTrans, C: set<NState>, a: Sym): set<NState>
  {
    set s, t | s in C && t in Targets(trans, s, a) :: t
  }

  /** The non-epsilon labels of moves out of members of `C` (nfa_to_dfa.py:43-45). */
  function SymbolsOf(trans: NfaTrans, C: set<NState>): set<Sym>
  {
    set s, a | s in C && s in trans && a in trans[s] && a != EPS :: a
  }

  /** The set of NFA states occupied after reading `w` from the set `S`. */
  ghost function NfaRun(trans: NfaTrans, S: set<NState>, w: seq<Sym>): set<NState>
    decreases |w|
  {
    if w == [] then S else NfaRun(trans, Closure(trans, Move(trans, S, w[0])), w[1..])
  }

  /** The states the NFA occupies before reading any input. */
  ghost function Initial(nfa: Nfa): set<NState>
  {
    Closure(nfa.trans, {nfa.start})
  }

  /** The NFA accepts `w` when some state it can occupy after `w` is final. */
  ghost predicate NfaAccepts(nfa: Nfa, w: seq<Sym>)
  {
    NfaRun(nfa.trans, Initial(nfa), w) * nfa.finals != {}
  }

  /** `C` is the set of NFA states occupied after some input word. */
  ghost predicate Reached(nfa: Nfa, C: set<NState>)
  {
    exists w :: NoEps(w) && NfaRun(nfa.trans, Initial(nfa), w) == C
  }

  /** A DFA state is final exactly when it meets the NFA's finals (nfa_to_dfa.py:39-40). */
  ghost predicate FinalsMarked(nfa: Nfa, d: Dfa<DState>)
  {
    forall C :: C in d.finals <==> C in d.states && C * nfa.finals != {}
  }

  /** The composite state reached from `C` on `a` (nfa_to_dfa.py:48-53). */
  ghost function Successor(nfa: Nfa, C: DState, a: Sym): DState
  {
    Closure(nfa.trans, Move(nfa.trans, C, a))
  }

  /** Every transition goes between DFA states, on a non-epsilon symbol,
      to the closure of a non-empty move (nfa_to_dfa.py:47-54). */
  ghost predicate TransitionsSound(nfa: Nfa, d: Dfa<DState>)
  {
    forall C, a :: (C, a) in d.trans ==>
      && C in d.states
      && a != EPS
      && Move(nfa.trans, C, a) != {}
      && d.trans[(C, a)] == Successor(nfa, C, a)
      && d.trans[(C, a)] in d.states
  }

  /** Every non-empty move out of a DFA state has a transition. */
  ghost predicate TransitionsComplete(nfa: Nfa, d: Dfa<DState>)
  {
    forall C, a :: C in d.states && a != EPS && Move(nfa.trans, C, a) != {} ==> (C, a) in d.trans
  }

  /** The facts the language-equivalence argument rests on. */
  ghost predicate IsSubsetDfa(nfa: Nfa, d: Dfa<DState>)
  {
    && (forall C :: C in d.states ==> C != {})
    && d.start == Initial(nfa)
    && d.start in d.states
    && FinalsMarked(nfa, d)
    && TransitionsSound(nfa, d)
    && TransitionsComplete(nfa, d)
  }

  /** Reading one more symbol closes the move of the current set. */
  lemma {:induction false} NfaRunSnoc(trans: NfaTrans, S: set<NState>, w: seq<Sym>, a: Sym)
    ensures NfaRun(trans, S, w + [a]) == Closure(trans, Move(trans, NfaRun(trans, S, w), a))
    decreases |w|
  {
    if w != [] {
      assert (w + [a])[1..] == w[1..] + [a];
      NfaRunSnoc(trans, Closure(trans, Move(trans, S, w[0])), w[1..], a);
    }
  }

  /** Once no state is occupied, none ever is again. */
  lemma {:induction false} NfaRunFromEmpty(trans: NfaTrans, w: seq<Sym>)
    ensures NfaRun(trans, {}, w) == {}
    decreases |w|
  {
    if w != [] {
      assert Move(trans, {}, w[0]) == {};
      ClosureOfEmpty(trans);
      NfaRunFromEmpty(trans, w[1..]);
    }
  }

  /** A symbol with a non-empty move from `C` is among the symbols scanned for `C`. */
  lemma MoveNeedsSymbol(trans: NfaTrans, C: set<NState>, a: Sym)
    requires a != EPS && Move(trans, C, a) != {}
    ensures a in SymbolsOf(trans, C)
  {
    var t :| t in Move(trans, C, a);
    var s :| s in C && t in Targets(trans, s, a);
    assert s in trans && a in trans[s];
  }

  /** Every composite state lies inside the start state and the transition targets. */
  lemma ClosureOfMoveWithin(trans: NfaTrans, C: set<NState>, a: Sym)
    ensures Closure(trans, Move(trans, C, a)) <= AllTargets(trans)
  {
    ClosureWithin(trans, Move(trans, C, a));
    forall t | t in Move(trans, C, a) ensures t in AllTargets(trans) {
      var s :| s in C && t in Targets(trans, s, a);
    }
  }

  /** All subsets of `U`. */
  ghost function PowerSet(U: set<NState>): set<set<NState>>
  {
    set X: set<NState> | X <= U
  }

  /** The NFA states that can occur in any composite state. */
  function Universe(nfa: Nfa): set<NState>
  {
    {nfa.start} + AllTargets(nfa.trans)
  }

  /** `D` is a legitimate composite state: non-empty, built from the NFA's
      states, and occupied after some input word. */
  ghost predicate Discovered(nfa: Nfa, D: DState)
  {
    D != {} && D <= Universe(nfa) && Reached(nfa, D)
  }

  /** Reading one more input symbol from a reached set reaches its successor. */
  lemma StepReached(nfa: Nfa, C: DState, a: Sym)
    requires Reached(nfa, C) && a != EPS
    ensures Reached(nfa, Successor(nfa, C, a))
  {
    var w :| NoEps(w) && NfaRun(nfa.trans, Initial(nfa), w) == C;
    NfaRunSnoc(nfa.trans, Initial(nfa), w, a);
    assert NoEps(w + [a]);
  }

  /** The closure of a non-empty move out of a discovered state is discovered. */
  lemma StepDiscovered(nfa: Nfa, C: DState, a: Sym)
    requires Discovered(nfa, C) && a != EPS && Move(nfa.trans, C, a) != {}
    ensures Discovered(nfa, Successor(nfa, C, a))
  {
    ClosureContains(nfa.trans, Move(nfa.trans, C, a));
    ClosureOfMoveWithin(nfa.trans, C, a);
    StepReached(nfa, C, a);
  }

  lemma InPowerSet(U: set<NState>, X: set<NState>)
    requires X <= U
    ensures X in PowerSet(U)
  {
  }

  /** What holds of `trans` and `queue` once the symbols in `done` have been
      handled for `current`, starting from `trans0` and `queue0`: old
      transitions are kept, the new ones go out of `current` on a handled
      symbol to a recorded or queued successor, every handled symbol with a
      non-empty move has one, and the queue grows by discovered sets only. */
  ghost predicate Added(nfa: Nfa, current: DState, done: set<Sym>, states: set<DState>,
                        trans0: DfaTrans, queue0: seq<DState>, trans: DfaTrans, queue: seq<DState>)
  {
    && (forall C, a :: (C, a) in trans && C != current ==> (C, a) in trans0 && trans[(C, a)] == trans0[(C, a)])
    && (forall k :: k in trans0 ==> k in trans)
    && (forall a :: (current, a) in trans ==>
          && a in done && Move(nfa.trans, current, a) != {}
          && trans[(current, a)] == Successor(nfa, current, a)
          && (trans[(current, a)] in states || trans[(current, a)] in queue))
    && (forall a :: a in done && Move(nfa.trans, current, a) != {} ==> (current, a) in trans)
    && (forall D :: D in queue0 ==> D in queue)
    && (forall D :: D in queue ==> D in queue0 || Discovered(nfa, D))
  }

  /** Handling one more symbol as `AddTransition` does keeps `Added`. */
  lemma AddedStep(nfa: Nfa, current: DState, done: set<Sym>, sym: Sym, states: set<DState>,
                  trans0: DfaTrans, queue0: seq<DState>, trans: DfaTrans, queue: seq<DState>,
                  trans': DfaTrans, queue': seq<DState>)
    requires Added(nfa, current, done, states, trans0, queue0, trans, queue)
    requires Move(nfa.trans, current, sym) == {} ==> trans' == trans && queue' == queue
    requires Move(nfa.trans, current, sym) != {} ==>
      && trans' == trans[(current, sym) := Successor(nfa, current, sym)]
      && Discovered(nfa, Successor(nfa, current, sym))
      && queue' == if Successor(nfa, current, sym) in states then queue else queue + [Successor(nfa, current, sym)]
    ensures Added(nfa, current, done + {sym}, states, trans0, queue0, trans', queue')
  {
  }

  /** The processing of one popped, new composite state `current`: one
      transition per symbol with a non-empty move, and targets not yet
      recorded are appended to the queue (nfa_to_dfa.py:47-57). The map
      holds no transition out of `current` beforehand, so every key that
      mentions `current` afterwards is new. */
  method AddTransitions(nfa: Nfa, current: DState, symbols: set<Sym>, states: set<DState>,
                        trans0: DfaTrans, queue0: seq<DState>)
    returns (trans: DfaTrans, queue: seq<DState>)
    requires Discovered(nfa, current)
    requires forall a :: a in symbols ==> a != EPS
    requires forall C, a :: (C, a) in trans0 ==> C != current
    ensures forall C, a :: (C, a) in trans && C != current ==> (C, a) in trans0 && trans[(C, a)] == trans0[(C, a)]
    ensures forall k :: k in trans0 ==> k in trans
    ensures forall a :: (current, a) in trans ==>
      && a in symbols && Move(nfa.trans, current, a) != {}
      && trans[(current, a)] == Successor(nfa, current, a)
      && (trans[(current, a)] in states || trans[(current, a)] in queue)
    ensures forall a :: a in symbols && Move(nfa.trans, current, a) != {} ==> (current, a) in trans
    ensures forall D :: D in queue0 ==> D in queue
    ensures forall D :: D in queue ==> D in queue0 || Discovered(nfa, D)
  {
    trans, queue := trans0, queue0;
    var todo := symbols;
    while todo != {}
      invariant todo <= symbols
      invariant Added(nfa, current, symbols - todo, states, trans0, queue0, trans, queue)
      decreases todo
    {
      var sym :| sym in todo;
      ghost var trans1, queue1 := trans, queue;
      trans, queue := AddTransition(nfa, current, sym, states, trans, queue);
      AddedStep(nfa, current, symbols - todo, sym, states, trans0, queue0, trans1, queue1, trans, queue);
      todo := todo - {sym};
    }
  }

  /** The body of the symbol loop (nfa_to_dfa.py:48-57): a non-empty move on
      `sym` records the transition to its closure, which is queued when it is
      not a recorded state; an empty move changes nothing. */
  method AddTransition(nfa: Nfa, current: DState, sym: Sym, states: set<DState>, trans: DfaTrans, queue: seq<DState>)
    returns (trans': DfaTrans, queue': seq<DState>)
    requires Discovered(nfa, current) && sym != EPS
    ensures Move(nfa.trans, current, sym) == {} ==> trans' == trans && queue' == queue
    ensures Move(nfa.trans, current, sym) != {} ==>
      && trans' == trans[(current, sym) := Successor(nfa, current, sym)]
      && Discovered(nfa, Successor(nfa, current, sym))
      && queue' == if Successor(nfa, current, sym) in states then queue else queue + [Successor(nfa, current, sym)]
  {
    trans', queue' := trans, queue;
    var next := Move(nfa.trans, current, sym);
    if next != {} {
      var nextClosure := ComputeClosure(next, nfa.trans);
      StepDiscovered(nfa, current, sym);
      trans' := trans[(current, sym) := nextClosure];
      if nextClosure !in states {
        queue' := queue + [nextClosure];
      }
    }
  }

  /** Every transition is sound and leads to a recorded or a queued state:
      `TransitionsSound` while the worklist is not yet empty. */
  ghost predicate TransitionsPending(nfa: Nfa, d: Dfa<DState>, queue: seq<DState>)
  {
    forall C, a :: (C, a) in d.trans ==>
      && C in d.states
      && a != EPS
      && Move(nfa.trans, C, a) != {}
      && d.trans[(C, a)] == Successor(nfa, C, a)
      && (d.trans[(C, a)] in d.states || d.trans[(C, a)] in queue)
  }

  /** What holds of the DFA built so far and the worklist at the head of
      every iteration of the loop (nfa_to_dfa.py:31). */
  ghost predicate Invariant(nfa: Nfa, d: Dfa<DState>, queue: seq<DState>)
  {
    && d.start == Initial(nfa)
    && (d.start in d.states || d.start in queue)
    && (forall C :: C in queue ==> Discovered(nfa, C))
    && (forall C :: C in d.states ==> Discovered(nfa, C))
    && FinalsMarked(nfa, d)
    && TransitionsPending(nfa, d, queue)
    && TransitionsComplete(nfa, d)
  }

  /** One iteration of the worklist loop (nfa_to_dfa.py:32-57): pop a
      composite state; skip it when it is already recorded, otherwise record
      it, mark it final when it meets the NFA's finals and add its
      transitions. */
  method ProcessState(nfa: Nfa, d: Dfa<DState>, queue: seq<DState>) returns (d': Dfa<DState>, queue': seq<DState>)
    requires queue != [] && Invariant(nfa, d, queue)
    ensures Invariant(nfa, d', queue')
    ensures queue[0] in d.states ==> d'.states == d.states && |queue'| < |queue|
    ensures queue[0] !in d.states ==> d'.states == d.states + {queue[0]} && queue[0] <= Universe(nfa)
  {
    var current := queue[0];
    queue' := queue[1..];
    if current in d.states {
      d' := d;
      return;
    }
    var states := d.states + {current};
    var finals := if current * nfa.finals != {} then d.finals + {current} else d.finals;
    var symbols := SymbolsOf(nfa.trans, current);
    var trans;
    trans, queue' := AddTransitions(nfa, current, symbols, states, d.trans, queue');
    d' := Dfa(states, d.start, finals, trans);
    TransitionsKept(nfa, d, queue, d', queue');
    TransitionsAdded(nfa, d, current, d');
  }

  /** After `ProcessState` records `queue[0]`, every transition is still
      sound and leads to a recorded or queued state. */
  lemma TransitionsKept(nfa: Nfa, d: Dfa<DState>, queue: seq<DState>, d': Dfa<DState>, queue': seq<DState>)
    requires queue != [] && d'.states == d.states + {queue[0]}
    requires TransitionsPending(nfa, d, queue)
    requires forall C, a :: (C, a) in d'.trans && C != queue[0] ==> (C, a) in d.trans && d'.trans[(C, a)] == d.trans[(C, a)]
    requires forall a :: (queue[0], a) in d'.trans ==>
      && a != EPS && Move(nfa.trans, queue[0], a) != {}
      && d'.trans[(queue[0], a)] == Successor(nfa, queue[0], a)
      && (d'.trans[(queue[0], a)] in d'.states || d'.trans[(queue[0], a)] in queue')
    requires forall D :: D in queue[1..] ==> D in queue'
    ensures TransitionsPending(nfa, d', queue')
  {
    forall C, a | (C, a) in d'.trans && C != queue[0]
      ensures d'.trans[(C, a)] in d'.states || d'.trans[(C, a)] in queue'
    {
      var D := d.trans[(C, a)];
      if D in queue && D != queue[0] {
        assert D in queue[1..];
      }
    }
  }

  /** After `ProcessState` records `current` with a transition for every
      symbol it scans, every recorded state has all its transitions. */
  lemma TransitionsAdded(nfa: Nfa, d: Dfa<DState>, current: DState, d': Dfa<DState>)
    requires d'.states == d.states + {current}
    requires TransitionsComplete(nfa, d)
    requires forall k :: k in d.trans ==> k in d'.trans
    requires forall a :: a in SymbolsOf(nfa.trans, current) && Move(nfa.trans, current, a) != {} ==> (current, a) in d'.trans
    ensures TransitionsComplete(nfa, d')
  {
    forall C, a | C in d'.states && a != EPS && Move(nfa.trans, C, a) != {}
      ensures (C, a) in d'.trans
    {
      if C == current {
        MoveNeedsSymbol(nfa.trans, current, a);
      } else {
        assert (C, a) in d.trans;
      }
    }
  }

  /** The starting point of the loop: nothing recorded, the closure of the
      start state queued (nfa_to_dfa.py:24-29). */
  lemma InvariantInit(nfa: Nfa, initial: DState)
    requires initial == Initial(nfa)
    ensures Invariant(nfa, Dfa({}, initial, {}, map[]), [initial])
  {
    ClosureContains(nfa.trans, {nfa.start});
    ClosureWithin(nfa.trans, {nfa.start});
    assert NfaRun(nfa.trans, Initial(nfa), []) == initial;
    assert Discovered(nfa, initial);
  }

  /** The subset construction. The result is the DFA whose states are the
      non-empty sets of NFA states occupied after some input word. */
  method ConvertNfaToDfa(nfa: Nfa) returns (d: Dfa<DState>)
    ensures d.start == Initial(nfa) && d.start in d.states
    ensures FinalsMarked(nfa, d)
    ensures TransitionsSound(nfa, d)
    ensures TransitionsComplete(nfa, d)
    ensures forall C :: C in d.states ==> Discovered(nfa, C)
    ensures IsSubsetDfa(nfa, d)
  {
    var initial := ComputeClosure({nfa.start}, nfa.trans);
    d := Dfa({}, initial, {}, map[]);
    var queue := [initial];
    InvariantInit(nfa, initial);
    ghost var U := Universe(nfa);
    while queue != []
      invariant Invariant(nfa, d, queue)
      decreases PowerSet(U) - d.states, |queue|
    {
      ghost var current, before := queue[0], d.states;
      d, queue := ProcessState(nfa, d, queue);
      if current !in before {
        InPowerSet(U, current);
      }
    }
  }
  /** From any of its states the DFA tracks the NFA exactly: it is in the
      set of NFA states the NFA occupies, and it has stopped exactly when
      that set is empty. */
  lemma {:induction false} RunTracksNfa(nfa: Nfa, d: Dfa<DState>, C: DState, w: seq<Sym>)
    requires IsSubsetDfa(nfa, d) && C in d.states && NoEps(w)
    ensures NfaRun(nfa.trans, C, w) == {} ==> Run(d.trans, C, w) == None
    ensures NfaRun(nfa.trans, C, w) != {} ==>
      Run(d.trans, C, w) == Some(NfaRun(nfa.trans, C, w)) && NfaRun(nfa.trans, C, w) in d.states
    decreases |w|
  {
    if w != [] {
      var a := w[0];
      assert NoEps(w[1..]);
      var M := Move(nfa.trans, C, a);
      if M == {} {
        assert (C, a) !in d.trans;
        ClosureOfEmpty(nfa.trans);
        NfaRunFromEmpty(nfa.trans, w[1..]);
      } else {
        assert (C, a) in d.trans;
        RunTracksNfa(nfa, d, d.trans[(C, a)], w[1..]);
      }
    }
  }

  /** Language equivalence: on every word over the input alphabet, the DFA
      accepts exactly when the NFA does. */
  lemma LanguageEquivalence(nfa: Nfa, d: Dfa<DState>)
    requires IsSubsetDfa(nfa, d)
    ensures forall w :: NoEps(w) ==> (Accepts(d, w) <==> NfaAccepts(nfa, w))
  {
    forall w | NoEps(w)
      ensures Accepts(d, w) <==> NfaAccepts(nfa, w)
    {
      RunTracksNfa(nfa, d, d.start, w);
    }
  }

  /** The states of the constructed DFA are exactly the non-empty sets of NFA
      states occupied after some input word. */
  lemma StatesAreReachedSets(nfa: Nfa, d: Dfa<DState>)
    requires IsSubsetDfa(nfa, d)
    requires forall C :: C in d.states ==> Discovered(nfa, C)
    ensures forall C :: C in d.states <==> C != {} && Reached(nfa, C)
  {
    forall C | C != {} && Reached(nfa, C)
      ensures C in d.states
    {
      var w :| NoEps(w) && NfaRun(nfa.trans, Initial(nfa), w) == C;
      RunTracksNfa(nfa, d, d.start, w);
    }
  }

  /** Order independence: any two results of the construction for the same
      NFA are equal, whatever order the worklist and the symbol sets were
      processed in. */
  lemma ResultIsUnique(nfa: Nfa, d1: Dfa<DState>, d2: Dfa<DState>)
    requires IsSubsetDfa(nfa, d1) && forall C :: C in d1.states ==> Discovered(nfa, C)
    requires IsSubsetDfa(nfa, d2) && forall C :: C in d2.states ==> Discovered(nfa, C)
    ensures d1 == d2
  {
    StatesAreReachedSets(nfa, d1);
    StatesAreReachedSets(nfa, d2);
    assert d1.states == d2.states;
    assert d1.finals == d2.finals;
    forall k | k in d1.trans
      ensures k in d2.trans && d1.trans[k] == d2.trans[k]
    {
      assert (k.0, k.1) in d1.trans;
    }
    forall k | k in d2.trans
      ensures k in d1.trans
    {
      assert (k.0, k.1) in d2.trans;
    }
    assert d1.trans == d2.trans;
  }
}
